=== FILE: README.md ===
# FamilyFinanceBot ledger, modelled in Dafny

FamilyFinanceBot is a Telegram bot that keeps a family's income and expenses
in a Google spreadsheet. `/addincome <amount>` and `/addexpense <amount>`
append one row `(Type, Amount)` to the sheet. `Type` is `Доход` (income) or
`Расход` (expense). `/balance` reads every row and reports the income total,
the expense total and their difference. `/start` prints the list of commands.

This project models that core as pure functions over an immutable sequence of
rows:

- `options.dfy`: `Option`, the result of a step that may fail.
- `ledger.dfy` (module `Ledger`): rows, the per-type totals, the balance
  snapshot, and the lemmas about sums. The total is also proved equal to an
  independent filter-then-sum definition. The sums cover the empty ledger,
  concatenation, rows of other types, appending, and permutation.
- `amount_parse.dfy` (module `AmountParse`): the conversion of the command
  argument with `float`, restricted to decimal numerals. Lexing and spelling
  are proved inverse to each other.
- `row_store.dfy` (module `RowStore`): `append_row` and `get_all_records`
  over the in-memory rows. A flag says whether the remote call succeeds.
- `commands.dfy` (module `Commands`): the four handlers, the command table,
  sessions of commands, and a sample session of two incomes and one expense.

Every handler maps the current rows, the command's arguments and the store's
availability to the rows afterwards and a reply (`Outcome`). A reply of
`Unhandled` means an exception escaped the handler and the user gets no
message.

Behaviour of the code that the model keeps:

- Amounts may be negative or zero: `float` accepts `-5` and the handler
  appends it.
- A failed `append_row` gives the same usage hint as a bad argument, because
  the bare `except` catches the store error too.
- `/balance` catches nothing. If the read fails, or a row of a summed type
  holds a non-numeric amount, the handler raises and no reply is sent.
- A row whose `Type` is neither label is ignored, whatever its amount holds.

## Model

| member | source | states |
|---|---|---|
| `Ledger.Total` | bot.py:80-81 | The total for a type exists exactly when every row of that type has a numeric amount. A text amount makes `sum` raise. |
| `Ledger.Aggregate` | bot.py:79-83 | The balance exists exactly when both totals exist. Its income is the income total, its expense is the expense total, and its net is income minus expense. |
| `Ledger.Filter` | bot.py:80-81 | Every kept row has the given type, every input row of that type is kept, and the result is never longer than the input. That no row outside the input is kept is stated by `Ledger.FilterKeepsExactly`. |
| `Ledger.FilterKeepsExactly` | bot.py:80-81 | Each row of the given type is kept exactly as many times as it occurs in the input. No row of another type, and no row absent from the input, is kept. |
| `Ledger.TotalIsFilteredSum` | bot.py:80-81 | The total equals an independent filter-then-sum: keep the rows of the type, then add their amounts as the first amount plus the sum of the rest, `a0 + (a1 + …)`. With exact reals this equals the left fold of `sum`. |
| `Ledger.TotalEmpty` | bot.py:80 | An empty sheet totals to zero. |
| `Ledger.TotalConcat` | bot.py:80-81 | The total of two row sequences joined is the sum of their totals. It fails if either part fails. |
| `Ledger.TotalIgnoresOtherTypes` | bot.py:80-81 | A row of another type, inserted anywhere, leaves the total unchanged. |
| `Ledger.TotalAppendMatching` | bot.py:80-81 | A numeric row of the summed type, appended at the end, adds exactly its amount. |
| `Ledger.TotalPermutation` | bot.py:80-81 | Two row sequences with the same multiset of rows have the same total. |
| `Ledger.AggregateEmpty` | bot.py:80-83 | An empty sheet reports income 0, expense 0 and net 0. |
| `Ledger.AggregatePermutation` | bot.py:78-84 | The balance does not depend on the order of the rows. |
| `Ledger.AggregateAppendEntry` | bot.py:80-83 | An income row of x raises income and net by x. An expense row of y raises expense by y and lowers net by y. A balance that failed still fails. |
| `AmountParse.DotIndex` | bot.py:64 | Gives the position of the first decimal point, or the length when there is none: no earlier character is a point. |
| `AmountParse.ParseAmount` | bot.py:64 | A successful conversion's argument is the spelling of a valid numeral (an optional sign, digits, an optional point). The argument spelling any valid numeral converts to exactly the number that numeral denotes. Together these fix the result for every string. bot.py:72 converts the same way. |
| `AmountParse.Lex` | bot.py:64 | Every split it accepts is a valid numeral: an optional sign, and at least one digit around an optional point. |
| `AmountParse.LexSpell` | bot.py:64 | Lexing the spelling of any valid numeral gives back that numeral. |
| `AmountParse.SpellLex` | bot.py:64 | Whatever the lexer accepts is spelled exactly as the argument it came from. |
| `AmountParse.ParseSpell` | bot.py:64 | Every valid numeral converts to the number it denotes. |
| `AmountParse.ParseAcceptsExactlyNumerals` | bot.py:64 | The conversion succeeds exactly on the spellings of valid numerals. |
| `RowStore.AppendRow` | bot.py:65 | A successful append adds the row after the last one and keeps every earlier row. It succeeds exactly when the store answers. |
| `RowStore.ReadAll` | bot.py:79 | A successful read returns every row in storage order. It succeeds exactly when the store answers. |
| `RowStore.AppendThenRead` | bot.py:65 | A row appended and then read back is the last row read. Every earlier row is as it was. |
| `Commands.Start` | bot.py:53-60 | `/start` replies with help and changes no row. |
| `Commands.AddEntry` | bot.py:62-76 | It replies `Added` exactly when there is a first argument, that argument converts, and the append succeeds. Then it appends exactly one entry row with the converted amount. Otherwise it gives the usage hint and changes no row. |
| `Commands.AddIncome` | bot.py:62-68 | On success it appends exactly `("Доход", amount)` after the existing rows. On any failure it gives the `/addincome` usage hint and changes no row. |
| `Commands.AddExpense` | bot.py:70-76 | On success it appends exactly `("Расход", amount)` after the existing rows. On any failure it gives the `/addexpense` usage hint and changes no row. |
| `Commands.Balance` | bot.py:78-84 | Never changes a row. It reports exactly when the read succeeds and both totals exist. It then reports the income total, the expense total and their difference. |
| `Commands.Dispatch` | bot.py:90-93 | Each command reaches its own handler. A confirmed amount is exactly the row appended, an entry of the confirmed kind; any other reply leaves the rows unchanged. `/start` replies with help. `/addincome` and `/addexpense` reply with their own usage hint or confirm an amount of their own kind. `/balance` changes no row and either sends nothing or reports the balance of the rows, and it reports whenever the store answers and both totals exist. Every command keeps the existing rows and adds at most one, an income or expense row with a numeric amount. |
| `Commands.Replay` | bot.py:62-84 | A session of commands only appends rows, at most one per command, and each is an entry row. No command edits or removes a row. |
| `Commands.ExtraArgumentsIgnored` | bot.py:64 | Two argument lists with the same first argument give the same outcome. |
| `Commands.BadArgumentChangesNothing` | bot.py:63-68 | A missing or non-numeric argument gives the usage hint and leaves the rows unchanged. |
| `Commands.FailedAppendChangesNothing` | bot.py:65-68 | A failed append gives the same usage hint and leaves the rows unchanged. |
| `Commands.AddEntrySucceeds` | bot.py:64-66 | A numeric argument with a working store appends the entry row for that amount and confirms it. |
| `Commands.AddThenBalance` | bot.py:62-84 | After a successful add, the balance moves by the added amount: income and net up by an income; expense up and net down by an expense. |
| `Commands.BalanceOrderIndependent` | bot.py:78-84 | Reordering the rows does not change the balance reply. |
| `Commands.BalanceOfEmptySheet` | bot.py:80-83 | An empty sheet reports 0, 0 and 0. |
| `Commands.BotWrittenSheetBalances` | bot.py:62-84 | A sheet written only through the bot always gets a balance report while the store answers. |
| `Commands.UsageScenarios` | bot.py:63-68 | `/addincome abc` and a bare `/addincome` give the usage hint and append nothing. |
| `Commands.TwoIncomesOneExpense` | bot.py:62-84 | On an empty sheet, incomes x and y and then expense z report x + y, z and x + y − z. |
| `Commands.SampleSessionBalance` | bot.py:62-84 | Income 1000, income 500 and expense 300 report 1500, 300 and 1200. |

## Left out

- AmountParse.Lex: accepts only decimal numerals (sign, digits, one optional point). Python's `float` also accepts exponents (`1e3`), `inf`, `nan`, underscores between digits, surrounding whitespace and non-ASCII digits. Those inputs are rejected by the model, though the source accepts them.
- Amounts are exact reals. Binary floating-point rounding of `float` and of `sum` is not modelled.
- AmountParse.ParseAmount: the range of a double is not modelled. In the source, a decimal numeral beyond about 1.8e308 (a `1` followed by 400 zeros, say) becomes `inf` without raising. Its `append_row` at bot.py:65 and bot.py:73 then fails to encode it, and the usage hint is sent. The model keeps the exact value, and the add succeeds. Likewise, a sum at bot.py:80-81 that overflows to `inf` is kept exact.
- Reply texts (emoji, f-string formatting of floats) are abstracted to the `Reply` datatype.
- Telegram transport (`reply_text`, `ApplicationBuilder`, `run_polling`) is I/O in a foreign library. One consequence is not modelled: at bot.py:66 and bot.py:74 the confirmation is sent inside the `try`. If sending it raises, the usage hint follows, even though the row was already appended.
- Loading the environment and credentials, writing the credentials file (bot.py:13-34), and connecting to the sheet at startup (bot.py:39-48) are configuration and network glue.
- test_gspread.py is a connectivity check that lists spreadsheets.
- The header row is assumed to be present and to read `Type, Amount`. Two cases are not modelled. On an empty sheet, the first appended row would become the header. A sheet without those column names would make a balance raise once a data row exists; a header-only sheet reads as no records and reports 0, 0 and 0.
- The store is assumed to return numbers as numbers. Values rendered in a locale the store cannot read back as numbers would come back as text.
- A failed append is modelled as writing nothing. Partial writes by the remote service are not modelled.
- Concurrent handling of several commands is not modelled, so appends cannot interleave with a balance read. A `Replay` session handles commands one after another.

=== FILE: amount_parse.dfy ===
/**
 Reading the amount argument of `/addincome` and `/addexpense`.

 The handlers convert their first argument with Python's `float`. This module
 models the decimal part of that grammar: an optional `+` or `-`, then digits
 with at most one decimal point and at least one digit (`12`, `-3.5`, `7.`,
 `.25`). Anything else is a conversion failure.
 */
module AmountParse {
  import opened Options

  predicate IsDigit(c: char) {
    '0' <= c <= '9'
  }

  predicate AllDigits(s: string) {
    forall i :: 0 <= i < |s| ==> IsDigit(s[i])
  }

  function DigitValue(c: char): nat
    requires IsDigit(c)
  {
    c as int - '0' as int
  }

  /** The value of a string of decimal digits, most significant first. */
  function DigitsValue(s: string): nat
    requires AllDigits(s)
    decreases |s|
  {
    if |s| == 0 then 0 else DigitsValue(s[..|s| - 1]) * 10 + DigitValue(s[|s| - 1])
  }

  /** The value of the digits written after a decimal point: `.d1d2…` is `(d1 + .d2…) / 10`. */
  function FractionValue(s: string): real
    requires AllDigits(s)
    decreases |s|
  {
    if |s| == 0 then 0.0 else (DigitValue(s[0]) as real + FractionValue(s[1..])) / 10.0
  }

  /** The position of the first decimal point, or the length when there is none. */
  function DotIndex(s: string): (k: nat)
    ensures k <= |s|
    ensures k < |s| ==> s[k] == '.'
    ensures forall j :: 0 <= j < k ==> s[j] != '.'
    decreases |s|
  {
    if |s| == 0 || s[0] == '.' then 0 else 1 + DotIndex(s[1..])
  }

  /** The parts of a written decimal numeral: sign, digits before the point, the point, digits after it. */
  datatype Numeral = Numeral(sign: string, whole: string, point: bool, frac: string)

  /** The numerals the conversion accepts: an optional sign, and at least one digit around an optional point. */
  predicate ValidNumeral(n: Numeral) {
    && (n.sign == "" || n.sign == "+" || n.sign == "-")
    && AllDigits(n.whole)
    && AllDigits(n.frac)
    && (if n.point then 0 < |n.whole| + |n.frac| else 0 < |n.whole| && n.frac == "")
  }

  /** How a numeral is written. */
  function Spell(n: Numeral): string {
    n.sign + n.whole + (if n.point then "." + n.frac else "")
  }

  /** The number a numeral denotes. */
  function Value(n: Numeral): real
    requires ValidNumeral(n)
  {
    var m := DigitsValue(n.whole) as real + FractionValue(n.frac);
    if n.sign == "-" then -m else m
  }

  /** Splits an argument into its numeral parts; `None` when they do not form a valid numeral. */
  function Lex(s: string): (r: Option<Numeral>)
    ensures r.Some? ==> ValidNumeral(r.value)
  {
    var sign := if 0 < |s| && (s[0] == '+' || s[0] == '-') then s[..1] else "";
    var u := s[|sign|..];
    var k := DotIndex(u);
    var n := Numeral(sign, u[..k], k < |u|, if k < |u| then u[k + 1..] else "");
    if ValidNumeral(n) then Some(n) else None
  }

  /** The conversion of a command argument to an amount; `None` when the conversion raises. */
  function ParseAmount(s: string): (r: Option<real>)
    ensures r.Some? ==> Lex(s).Some? && ValidNumeral(Lex(s).value) && Spell(Lex(s).value) == s
    ensures forall n :: ValidNumeral(n) && Spell(n) == s ==> r == Some(Value(n))
  {
    match Lex(s)
    case None =>
      assert forall n | ValidNumeral(n) :: Lex(Spell(n)) == Some(n) by {
        forall n | ValidNumeral(n) ensures Lex(Spell(n)) == Some(n) { LexSpell(n); }
      }
      None
    case Some(m) =>
      SpellLex(s);
      assert forall n | ValidNumeral(n) :: Lex(Spell(n)) == Some(n) by {
        forall n | ValidNumeral(n) ensures Lex(Spell(n)) == Some(n) { LexSpell(n); }
      }
      Some(Value(m))
  }

  // ---------------------------------------------------------------------------
  // Lexing and spelling are inverse to each other
  // ---------------------------------------------------------------------------

  /** A string of digits followed by nothing or by a point has its first point right after the digits. */
  lemma {:induction false} DotIndexOfDigits(whole: string, rest: string)
    requires AllDigits(whole)
    requires rest == "" || rest[0] == '.'
    ensures DotIndex(whole + rest) == |whole|
    decreases |whole|
  {
    if |whole| == 0 {
      assert whole + rest == rest;
    } else {
      assert (whole + rest)[0] == whole[0];
      assert (whole + rest)[1..] == whole[1..] + rest;
      DotIndexOfDigits(whole[1..], rest);
    }
  }

  /** The sign a valid numeral is written with is the one read back. */
  lemma LexSign(n: Numeral)
    requires ValidNumeral(n)
    ensures var s := Spell(n);
      (if 0 < |s| && (s[0] == '+' || s[0] == '-') then s[..1] else "") == n.sign
  {
  }

  /** Digits followed by an optional point and more digits split at the point back into both parts. */
  lemma SplitUnsigned(whole: string, point: bool, frac: string)
    requires AllDigits(whole)
    ensures var u := whole + (if point then "." + frac else "");
      && DotIndex(u) == |whole|
      && u[..|whole|] == whole
      && (|whole| < |u| <==> point)
      && (point ==> u[|whole| + 1..] == frac)
  {
    var tail := if point then "." + frac else "";
    DotIndexOfDigits(whole, tail);
    var u := whole + tail;
    assert u[..|whole|] == whole;
    if point {
      assert u[|whole| + 1..] == frac;
    }
  }

  /** Every valid numeral is lexed back into the same parts. */
  lemma LexSpell(n: Numeral)
    requires ValidNumeral(n)
    ensures Lex(Spell(n)) == Some(n)
  {
    var tail := if n.point then "." + n.frac else "";
    LexSign(n);
    assert Spell(n) == n.sign + (n.whole + tail);
    assert Spell(n)[|n.sign|..] == n.whole + tail;
    SplitUnsigned(n.whole, n.point, n.frac);
  }

  /** Whatever the lexer accepts is spelled exactly as the argument it came from. */
  lemma SpellLex(s: string)
    requires Lex(s).Some?
    ensures Spell(Lex(s).value) == s
  {
  }

  /** Every valid numeral is converted to the number it denotes. */
  lemma ParseSpell(n: Numeral)
    requires ValidNumeral(n)
    ensures ParseAmount(Spell(n)) == Some(Value(n))
  {
    LexSpell(n);
  }

  /** The conversion accepts exactly the spellings of valid numerals. */
  lemma ParseAcceptsExactlyNumerals(s: string)
    ensures ParseAmount(s).Some? <==> exists n :: ValidNumeral(n) && Spell(n) == s
  {
  }

}

=== FILE: commands.dfy ===
/**
 The four bot commands, each a pure function from the sheet's rows and the
 command's arguments to the rows afterwards and the reply.

 `/addincome` and `/addexpense` convert their first argument to a number and
 append one row of their kind; any failure on the way, whether a missing
 argument, an argument that is not a number or a failed append, is caught and
 answered with that command's usage hint. `/balance` reads all rows and
 reports the income total, the expense total and their difference; it catches
 nothing, so a failed read or a non-numeric amount ends the handler without a
 reply.
 */
module Commands {
  import opened Options
  import opened Ledger
  import opened AmountParse
  import RowStore

  /** What the bot answers. */
  datatype Reply =
    | Help                              // the static command list of `/start`
    | Added(kind: Kind, amount: real)   // confirmation naming the amount added
    | Usage(kind: Kind)                 // the usage hint of `/addincome` or `/addexpense`
    | Report(snapshot: Snapshot)        // income, expense and net
    | Unhandled                         // an exception left the handler; nothing is sent

  /** The rows after a command and its reply. */
  datatype Outcome = Outcome(ledger: seq<Row>, reply: Reply)

  /** `/start` answers with the command list and touches no row. */
  function Start(ledger: seq<Row>): (o: Outcome)
    ensures o.ledger == ledger && o.reply == Help
  {
    Outcome(ledger, Help)
  }

  /**
   The handler shared by `/addincome` and `/addexpense`. Only the first
   argument is read; extra arguments are ignored.
   */
  function AddEntry(k: Kind, ledger: seq<Row>, args: seq<string>, online: bool): (o: Outcome)
    ensures o.reply == Usage(k) || o.reply.Added?
    ensures o.reply.Added? <==> 0 < |args| && ParseAmount(args[0]).Some? && online
    ensures o.reply.Added? ==>
      && o.reply.kind == k
      && ParseAmount(args[0]) == Some(o.reply.amount)
      && o.ledger == ledger + [EntryRow(k, o.reply.amount)]
    ensures o.reply.Usage? ==> o.ledger == ledger
  {
    if |args| == 0 then Outcome(ledger, Usage(k))
    else
      match ParseAmount(args[0])
      case None => Outcome(ledger, Usage(k))
      case Some(x) =>
        match RowStore.AppendRow(ledger, EntryRow(k, x), online)
        case None => Outcome(ledger, Usage(k))
        case Some(rows) => Outcome(rows, Added(k, x))
  }

  /** `/addincome <amount>`: one income row more, or the usage hint and no change. */
  function AddIncome(ledger: seq<Row>, args: seq<string>, online: bool): (o: Outcome)
    ensures o.reply == Usage(Income) || o.reply.Added?
    ensures o.reply.Added? <==> 0 < |args| && ParseAmount(args[0]).Some? && online
    ensures o.reply.Added? ==>
      && ParseAmount(args[0]) == Some(o.reply.amount)
      && o.ledger == ledger + [Row("Доход", Num(o.reply.amount))]
    ensures o.reply.Usage? ==> o.ledger == ledger
  {
    AddEntry(Income, ledger, args, online)
  }

  /** `/addexpense <amount>`: one expense row more, or the usage hint and no change. */
  function AddExpense(ledger: seq<Row>, args: seq<string>, online: bool): (o: Outcome)
    ensures o.reply == Usage(Expense) || o.reply.Added?
    ensures o.reply.Added? <==> 0 < |args| && ParseAmount(args[0]).Some? && online
    ensures o.reply.Added? ==>
      && ParseAmount(args[0]) == Some(o.reply.amount)
      && o.ledger == ledger + [Row("Расход", Num(o.reply.amount))]
    ensures o.reply.Usage? ==> o.ledger == ledger
  {
    AddEntry(Expense, ledger, args, online)
  }

  /** `/balance`: reads the rows and reports their balance; it never changes a row. */
  function Balance(ledger: seq<Row>, online: bool): (o: Outcome)
    ensures o.ledger == ledger
    ensures o.reply.Report? || o.reply == Unhandled
    ensures o.reply.Report? <==>
      online && Summable(ledger, Label(Income)) && Summable(ledger, Label(Expense))
    ensures o.reply.Report? ==>
      && Some(o.reply.snapshot.income) == Total(ledger, "Доход")
      && Some(o.reply.snapshot.expense) == Total(ledger, "Расход")
      && o.reply.snapshot.net == o.reply.snapshot.income - o.reply.snapshot.expense
  {
    match RowStore.ReadAll(ledger, online)
    case None => Outcome(ledger, Unhandled)
    case Some(records) =>
      match Aggregate(records)
      case None => Outcome(ledger, Unhandled)
      case Some(s) => Outcome(ledger, Report(s))
  }

  // ---------------------------------------------------------------------------
  // The command table and sessions of commands
  // ---------------------------------------------------------------------------

  /** A command as it arrives, with its whitespace-separated arguments. */
  datatype Command =
    | StartCommand
    | AddIncomeCommand(args: seq<string>)
    | AddExpenseCommand(args: seq<string>)
    | BalanceCommand

  /** One command and whether the store calls made while handling it succeed. */
  datatype Step = Step(command: Command, online: bool)

  /** A row written by the bot itself: one of the two labels with a numeric amount. */
  predicate IsEntryRow(r: Row) {
    (r.typ == Label(Income) || r.typ == Label(Expense)) && r.amount.Num?
  }

  /** Runs the handler registered for the command. */
  function Dispatch(ledger: seq<Row>, step: Step): (o: Outcome)
    ensures |ledger| <= |o.ledger| <= |ledger| + 1
    ensures o.ledger[..|ledger|] == ledger
    ensures |o.ledger| == |ledger| + 1 ==> IsEntryRow(o.ledger[|ledger|])
    ensures o.reply.Added? ==> o.ledger == ledger + [EntryRow(o.reply.kind, o.reply.amount)]
    ensures !o.reply.Added? ==> o.ledger == ledger
    ensures step.command.StartCommand? ==> o.reply == Help
    ensures step.command.AddIncomeCommand? ==>
      o.reply == Usage(Income) || (o.reply.Added? && o.reply.kind == Income)
    ensures step.command.AddExpenseCommand? ==>
      o.reply == Usage(Expense) || (o.reply.Added? && o.reply.kind == Expense)
    ensures step.command.BalanceCommand? ==>
      o.ledger == ledger && (o.reply == Unhandled || (o.reply.Report? && Some(o.reply.snapshot) == Aggregate(ledger)))
    ensures step.command.BalanceCommand? && step.online && Aggregate(ledger).Some? ==> o.reply.Report?
  {
    match step.command
    case StartCommand => Start(ledger)
    case AddIncomeCommand(args) => AddIncome(ledger, args, step.online)
    case AddExpenseCommand(args) => AddExpense(ledger, args, step.online)
    case BalanceCommand => Balance(ledger, step.online)
  }

  /**
   The rows after handling the steps one after the other. Rows are only ever
   added at the end, each one an entry row: no command edits or removes a row.
   */
  function Replay(ledger: seq<Row>, steps: seq<Step>): (rows: seq<Row>)
    ensures |ledger| <= |rows| <= |ledger| + |steps|
    ensures rows[..|ledger|] == ledger
    ensures forall i :: |ledger| <= i < |rows| ==> IsEntryRow(rows[i])
    decreases |steps|
  {
    if |steps| == 0 then ledger
    else
      var next := Dispatch(ledger, steps[0]).ledger;
      var rows := Replay(next, steps[1..]);
      assert forall i :: |ledger| <= i < |next| ==> rows[i] == rows[..|next|][i] == next[i];
      rows
  }

  // ---------------------------------------------------------------------------
  // Properties of the handlers
  // ---------------------------------------------------------------------------

  /** Only the first argument matters: two argument lists that start alike give the same outcome. */
  lemma ExtraArgumentsIgnored(k: Kind, ledger: seq<Row>, args: seq<string>, args': seq<string>, online: bool)
    requires 0 < |args| && 0 < |args'| && args[0] == args'[0]
    ensures AddEntry(k, ledger, args, online) == AddEntry(k, ledger, args', online)
  {
  }

  /** A missing or non-numeric argument gives the usage hint and leaves every row as it was. */
  lemma BadArgumentChangesNothing(k: Kind, ledger: seq<Row>, args: seq<string>, online: bool)
    requires |args| == 0 || ParseAmount(args[0]).None?
    ensures AddEntry(k, ledger, args, online) == Outcome(ledger, Usage(k))
  {
  }

  /** A failed append gives the same usage hint and leaves every row as it was. */
  lemma FailedAppendChangesNothing(k: Kind, ledger: seq<Row>, args: seq<string>)
    ensures AddEntry(k, ledger, args, false) == Outcome(ledger, Usage(k))
  {
  }

  /**
   After a successful `/addincome x` the balance reports income and net raised
   by x; after a successful `/addexpense y`, expense raised by y and net lowered by y.
   */
  lemma AddThenBalance(k: Kind, ledger: seq<Row>, args: seq<string>, s: Snapshot)
    requires Aggregate(ledger) == Some(s)
    requires AddEntry(k, ledger, args, true).reply.Added?
    ensures var x := AddEntry(k, ledger, args, true).reply.amount;
      Balance(AddEntry(k, ledger, args, true).ledger, true).reply
        == Report(Shift(s, k, x))
  {
  }

  /** The balance report does not depend on the order of the rows. */
  lemma BalanceOrderIndependent(a: seq<Row>, b: seq<Row>, online: bool)
    requires multiset(a) == multiset(b)
    ensures Balance(a, online).reply == Balance(b, online).reply
  {
    AggregatePermutation(a, b);
  }

  /** On an empty sheet the balance reports zero income, zero expense and zero net. */
  lemma BalanceOfEmptySheet()
    ensures Balance([], true).reply == Report(Snapshot(0.0, 0.0, 0.0))
  {
  }

  /** A sheet written only by the bot always has a balance while the store answers. */
  lemma BotWrittenSheetBalances(steps: seq<Step>)
    ensures Balance(Replay([], steps), true).reply.Report?
  {
  }

  /** `/addincome abc` and a bare `/addincome` both give the usage hint and append nothing. */
  lemma UsageScenarios(ledger: seq<Row>)
    ensures AddIncome(ledger, ["abc"], true) == Outcome(ledger, Usage(Income))
    ensures AddIncome(ledger, [], true) == Outcome(ledger, Usage(Income))
  {
  }

  /** The numeral `digits`, written without sign or point, converts to its value. */
  lemma ParseWhole(digits: string)
    requires 0 < |digits| && AllDigits(digits)
    ensures ParseAmount(digits) == Some(DigitsValue(digits) as real)
  {
    var n := Numeral("", digits, false, "");
    assert Spell(n) == digits;
    ParseSpell(n);
  }

  /** `1000` converts to 1000. */
  lemma ParseThousand()
    ensures ParseAmount("1000") == Some(1000.0)
  {
    assert DigitsValue("1") == 1 by { assert "1"[..0] == ""; }
    assert DigitsValue("10") == 10 by { assert "10"[..1] == "1"; }
    assert DigitsValue("100") == 100 by { assert "100"[..2] == "10"; }
    assert DigitsValue("1000") == 1000 by { assert "1000"[..3] == "100"; }
    ParseWhole("1000");
  }

  /** `d00` converts to d times 100. */
  lemma ParseHundreds(d: char)
    requires IsDigit(d)
    ensures ParseAmount([d, '0', '0']) == Some((DigitValue(d) * 100) as real)
  {
    assert DigitsValue([d]) == DigitValue(d) by { assert [d][..0] == []; }
    assert DigitsValue([d, '0']) == DigitValue(d) * 10 by { assert [d, '0'][..1] == [d]; }
    assert DigitsValue([d, '0', '0']) == DigitValue(d) * 100 by { assert [d, '0', '0'][..2] == [d, '0']; }
    ParseWhole([d, '0', '0']);
  }

  /** The session of two incomes and an expense, with the arguments as given. */
  function TwoIncomesOneExpenseSession(a: string, b: string, c: string): seq<Step> {
    [Step(AddIncomeCommand([a]), true),
     Step(AddIncomeCommand([b]), true),
     Step(AddExpenseCommand([c]), true)]
  }

  /** Replaying a session is handling its first step and then replaying the rest. */
  lemma ReplayStep(ledger: seq<Row>, step: Step, rest: seq<Step>)
    ensures Replay(ledger, [step] + rest) == Replay(Dispatch(ledger, step).ledger, rest)
  {
  }

  /** A numeric argument and a working store append exactly the entry row for that amount. */
  lemma AddEntrySucceeds(k: Kind, ledger: seq<Row>, a: string, x: real)
    requires ParseAmount(a) == Some(x)
    ensures AddEntry(k, ledger, [a], true) == Outcome(ledger + [EntryRow(k, x)], Added(k, x))
  {
  }

  /** Replaying three steps is handling them one after the other. */
  lemma ReplayThree(l0: seq<Row>, s0: Step, s1: Step, s2: Step, l3: seq<Row>)
    requires Dispatch(Dispatch(Dispatch(l0, s0).ledger, s1).ledger, s2).ledger == l3
    ensures Replay(l0, [s0, s1, s2]) == l3
  {
    var l1 := Dispatch(l0, s0).ledger;
    var l2 := Dispatch(l1, s1).ledger;
    assert [s0, s1, s2] == [s0] + ([s1] + [s2]);
    ReplayStep(l0, s0, [s1] + [s2]);
    ReplayStep(l1, s1, [s2]);
    ReplayStep(l2, s2, []);
    assert [s2] + [] == [s2];
  }

  /** A successful add command, dispatched, appends the entry row for its amount. */
  lemma DispatchEntry(k: Kind, ledger: seq<Row>, a: string, x: real)
    requires ParseAmount(a) == Some(x)
    ensures Dispatch(ledger, Step(if k == Income then AddIncomeCommand([a]) else AddExpenseCommand([a]), true)).ledger
         == ledger + [EntryRow(k, x)]
  {
    AddEntrySucceeds(k, ledger, a, x);
  }

  /** That session writes the three rows its steps append, in order. */
  lemma TwoIncomesOneExpenseRows(a: string, b: string, c: string, r1: Row, r2: Row, r3: Row)
    requires Dispatch([], Step(AddIncomeCommand([a]), true)).ledger == [r1]
    requires Dispatch([r1], Step(AddIncomeCommand([b]), true)).ledger == [r1, r2]
    requires Dispatch([r1, r2], Step(AddExpenseCommand([c]), true)).ledger == [r1, r2, r3]
    ensures Replay([], TwoIncomesOneExpenseSession(a, b, c)) == [r1, r2, r3]
  {
    ReplayThree([], Step(AddIncomeCommand([a]), true), Step(AddIncomeCommand([b]), true),
      Step(AddExpenseCommand([c]), true), [r1, r2, r3]);
  }

  /** Two income rows and an expense row report the incomes' sum, the expense and the difference. */
  lemma TwoIncomesOneExpenseAggregate(x: real, y: real, z: real)
    ensures Aggregate([EntryRow(Income, x), EntryRow(Income, y), EntryRow(Expense, z)])
         == Some(Snapshot(x + y, z, x + y - z))
  {
    var l1 := [EntryRow(Income, x)];
    var l2 := l1 + [EntryRow(Income, y)];
    AggregateEmpty();
    AggregateAppendEntry([], Income, x);
    assert [] + [EntryRow(Income, x)] == l1;
    AggregateAppendEntry(l1, Income, y);
    AggregateAppendEntry(l2, Expense, z);
    assert l2 + [EntryRow(Expense, z)] == [EntryRow(Income, x), EntryRow(Income, y), EntryRow(Expense, z)];
  }

  /** A session whose three steps each append their entry row reports the rows' balance. */
  lemma SessionReport(a: string, b: string, c: string, x: real, y: real, z: real)
    requires Dispatch([], Step(AddIncomeCommand([a]), true)).ledger == [EntryRow(Income, x)]
    requires Dispatch([EntryRow(Income, x)], Step(AddIncomeCommand([b]), true)).ledger
          == [EntryRow(Income, x), EntryRow(Income, y)]
    requires Dispatch([EntryRow(Income, x), EntryRow(Income, y)], Step(AddExpenseCommand([c]), true)).ledger
          == [EntryRow(Income, x), EntryRow(Income, y), EntryRow(Expense, z)]
    ensures Balance(Replay([], TwoIncomesOneExpenseSession(a, b, c)), true).reply
         == Report(Snapshot(x + y, z, x + y - z))
  {
    TwoIncomesOneExpenseRows(a, b, c, EntryRow(Income, x), EntryRow(Income, y), EntryRow(Expense, z));
    TwoIncomesOneExpenseAggregate(x, y, z);
  }

  /** Two incomes and an expense on an empty sheet report their sums and difference. */
  lemma TwoIncomesOneExpense(a: string, b: string, c: string, x: real, y: real, z: real)
    requires ParseAmount(a) == Some(x) && ParseAmount(b) == Some(y) && ParseAmount(c) == Some(z)
    ensures Balance(Replay([], TwoIncomesOneExpenseSession(a, b, c)), true).reply
         == Report(Snapshot(x + y, z, x + y - z))
  {
    var r1, r2, r3 := EntryRow(Income, x), EntryRow(Income, y), EntryRow(Expense, z);
    DispatchEntry(Income, [], a, x);
    assert [] + [r1] == [r1];
    DispatchEntry(Income, [r1], b, y);
    assert [r1] + [r2] == [r1, r2];
    DispatchEntry(Expense, [r1, r2], c, z);
    assert [r1, r2] + [r3] == [r1, r2, r3];
    SessionReport(a, b, c, x, y, z);
  }

  /** Income 1000, income 500 and expense 300 on an empty sheet report 1500, 300 and 1200. */
  lemma SampleSessionBalance()
    ensures Balance(Replay([], TwoIncomesOneExpenseSession("1000", "500", "300")), true).reply
         == Report(Snapshot(1500.0, 300.0, 1200.0))
  {
    ParseThousand();
    ParseHundreds('5');
    assert ['5', '0', '0'] == "500";
    ParseHundreds('3');
    assert ['3', '0', '0'] == "300";
    TwoIncomesOneExpense("1000", "500", "300", 1000.0, 500.0, 300.0);
  }
}

=== FILE: ledger.dfy ===
/**
 The ledger kept in the spreadsheet and its aggregation into a balance.

 The sheet holds a header row `Type, Amount` followed by one row per entry.
 Rows are read back as records: the `Type` cell is whatever text the sheet
 holds, and the `Amount` cell is a number when the store can read it as one
 and text otherwise. The balance sums the amounts of the rows whose `Type` is
 the income label, the amounts of the rows whose `Type` is the expense label,
 and reports both and their difference.
 */
module Ledger {
  import opened Options

  /** The two kinds of entry the bot writes. */
  datatype Kind = Income | Expense

  /** The text the bot writes into the `Type` column for each kind. */
  function Label(k: Kind): string {
    match k
    case Income => "Доход"
    case Expense => "Расход"
  }

  /** An `Amount` cell as the store returns it. */
  datatype Cell = Num(number: real) | Text(text: string)

  /** One data row of the sheet. */
  datatype Row = Row(typ: string, amount: Cell)

  /** The row the bot appends for an entry of kind `k` and amount `x`. */
  function EntryRow(k: Kind, x: real): Row {
    Row(Label(k), Num(x))
  }

  /** Addition that fails as soon as either operand failed. */
  function Plus(a: Option<real>, b: Option<real>): Option<real> {
    if a.Some? && b.Some? then Some(a.value + b.value) else None
  }

  /**
   What one row adds to the total for `tag`: nothing when its type differs,
   its amount when that is a number, and a failure when a matching row holds
   text (adding text to a number raises).
   */
  function Contribution(r: Row, tag: string): Option<real> {
    if r.typ != tag then Some(0.0)
    else match r.amount
      case Num(x) => Some(x)
      case Text(_) => None
  }

  /** Every row of type `tag` holds a numeric amount. */
  predicate Summable(rows: seq<Row>, tag: string) {
    forall i :: 0 <= i < |rows| && rows[i].typ == tag ==> rows[i].amount.Num?
  }

  /**
   The sum of the amounts of the rows of type `tag`, accumulated from the
   first row to the last starting at zero; `None` when a matching row holds text.
   */
  function Total(rows: seq<Row>, tag: string): (t: Option<real>)
    ensures t.Some? <==> Summable(rows, tag)
    decreases |rows|
  {
    if |rows| == 0 then Some(0.0)
    else Plus(Total(rows[..|rows| - 1], tag), Contribution(rows[|rows| - 1], tag))
  }

  /** The figures of a balance report. */
  datatype Snapshot = Snapshot(income: real, expense: real, net: real)

  /**
   The balance of a ledger: the income total, the expense total and the net
   (income minus expense); `None` when either total fails.
   */
  function Aggregate(rows: seq<Row>): (s: Option<Snapshot>)
    ensures s.Some? <==> Summable(rows, Label(Income)) && Summable(rows, Label(Expense))
    ensures s.Some? ==> Some(s.value.income) == Total(rows, Label(Income))
    ensures s.Some? ==> Some(s.value.expense) == Total(rows, Label(Expense))
    ensures s.Some? ==> s.value.net == s.value.income - s.value.expense
  {
    var income := Total(rows, Label(Income));
    var expense := Total(rows, Label(Expense));
    if income.Some? && expense.Some? then
      Some(Snapshot(income.value, expense.value, income.value - expense.value))
    else None
  }

  /** The balance after one more entry: the entry's amount moves its own total and the net. */
  function Shift(s: Snapshot, k: Kind, x: real): Snapshot {
    match k
    case Income => Snapshot(s.income + x, s.expense, s.net + x)
    case Expense => Snapshot(s.income, s.expense + x, s.net - x)
  }

  // ---------------------------------------------------------------------------
  // Lemmas about totals
  // ---------------------------------------------------------------------------

  /** The empty ledger totals to zero for every tag. */
  lemma TotalEmpty(tag: string)
    ensures Total([], tag) == Some(0.0)
  {
  }

  /** The total of a concatenation is the sum of the totals of its parts. */
  lemma {:induction false} TotalConcat(a: seq<Row>, b: seq<Row>, tag: string)
    ensures Total(a + b, tag) == Plus(Total(a, tag), Total(b, tag))
    decreases |b|
  {
    if |b| == 0 {
      assert a + b == a;
    } else {
      var b' := b[..|b| - 1];
      assert (a + b)[..|a + b| - 1] == a + b';
      assert (a + b)[|a + b| - 1] == b[|b| - 1];
      TotalConcat(a, b', tag);
    }
  }

  /** A single row totals to its contribution. */
  lemma TotalSingle(r: Row, tag: string)
    ensures Total([r], tag) == Contribution(r, tag)
  {
  }

  /** A row of another type can be inserted anywhere without changing the total. */
  lemma TotalIgnoresOtherTypes(a: seq<Row>, r: Row, b: seq<Row>, tag: string)
    requires r.typ != tag
    ensures Total(a + [r] + b, tag) == Total(a + b, tag)
  {
    TotalConcat(a + [r], b, tag);
    TotalConcat(a, [r], tag);
    TotalSingle(r, tag);
    TotalConcat(a, b, tag);
  }

  /** A row of type `tag` with a numeric amount adds exactly that amount. */
  lemma TotalAppendMatching(rows: seq<Row>, x: real, tag: string)
    ensures Total(rows + [Row(tag, Num(x))], tag) == Plus(Total(rows, tag), Some(x))
  {
  }

  /** Taking one row out of the middle of a ledger takes its contribution out of the total. */
  lemma TotalExtract(front: seq<Row>, r: Row, back: seq<Row>, tag: string)
    ensures Total(front + [r] + back, tag) == Plus(Total(front + back, tag), Contribution(r, tag))
  {
    TotalConcat(front + [r], back, tag);
    TotalConcat(front, [r], tag);
    TotalConcat(front, back, tag);
    TotalSingle(r, tag);
  }

  /** Removing the same element from two equal multisets of rows leaves equal multisets. */
  lemma MultisetExtract(front: seq<Row>, r: Row, back: seq<Row>, rest: seq<Row>)
    requires multiset(front + [r] + back) == multiset(rest + [r])
    ensures multiset(front + back) == multiset(rest)
  {
    assert multiset(front + [r] + back) == multiset(front) + multiset{r} + multiset(back);
    assert multiset(rest + [r]) == multiset(rest) + multiset{r};
    var m := multiset(front) + multiset(back);
    assert multiset(front + back) == m;
    assert m + multiset{r} == multiset(rest) + multiset{r};
    assert m == (m + multiset{r}) - multiset{r};
    assert multiset(rest) == (multiset(rest) + multiset{r}) - multiset{r};
  }

  /** Totals do not depend on the order of the rows. */
  lemma {:induction false} TotalPermutation(a: seq<Row>, b: seq<Row>, tag: string)
    requires multiset(a) == multiset(b)
    ensures Total(a, tag) == Total(b, tag)
    decreases |b|
  {
    if |b| == 0 {
      assert |a| == |multiset(a)|;
      assert a == [];
    } else {
      var r := b[|b| - 1];
      var b' := b[..|b| - 1];
      assert b == b' + [r];
      assert r in multiset(a);
      var i :| 0 <= i < |a| && a[i] == r;
      var front, back := a[..i], a[i + 1..];
      assert a == front + [r] + back;
      MultisetExtract(front, r, back, b');
      TotalPermutation(front + back, b', tag);
      TotalExtract(front, r, back, tag);
      TotalExtract(b', r, [], tag);
      assert b' + [r] + [] == b;
      assert b' + [] == b';
    }
  }

  // ---------------------------------------------------------------------------
  // The total as "filter, then sum"
  // ---------------------------------------------------------------------------

  /** The rows of type `tag`, in their original order. */
  function Filter(rows: seq<Row>, tag: string): (f: seq<Row>)
    ensures |f| <= |rows|
    ensures forall i :: 0 <= i < |f| ==> f[i].typ == tag
    ensures forall r :: r in rows && r.typ == tag ==> r in f
    decreases |rows|
  {
    if |rows| == 0 then []
    else (if rows[0].typ == tag then [rows[0]] else []) + Filter(rows[1..], tag)
  }

  /** Each row of type `tag` is kept as often as it occurs; no other row is kept. */
  lemma {:induction false} FilterKeepsExactly(rows: seq<Row>, tag: string, r: Row)
    ensures multiset(Filter(rows, tag))[r] == (if r.typ == tag then multiset(rows)[r] else 0)
    decreases |rows|
  {
    if |rows| > 0 {
      FilterKeepsExactly(rows[1..], tag, r);
      assert rows == [rows[0]] + rows[1..];
      assert multiset(rows) == multiset([rows[0]]) + multiset(rows[1..]);
    }
  }

  /** The amount of a cell as a number; `None` for text. */
  function CellValue(c: Cell): Option<real> {
    match c
    case Num(x) => Some(x)
    case Text(_) => None
  }

  /** The sum of the amounts of all the given rows; `None` when one of them is text. */
  function SumAmounts(rows: seq<Row>): Option<real>
    decreases |rows|
  {
    if |rows| == 0 then Some(0.0) else Plus(CellValue(rows[0].amount), SumAmounts(rows[1..]))
  }

  /** One row taken off the front of a ledger: its contribution and the total of the rest. */
  lemma TotalFront(r: Row, rest: seq<Row>, tag: string)
    ensures Total([r] + rest, tag) == Plus(Contribution(r, tag), Total(rest, tag))
  {
    TotalConcat([r], rest, tag);
    TotalSingle(r, tag);
  }

  /** Filtering one row off the front and summing: its amount if it has type `tag`, then the rest. */
  lemma FilteredSumFront(r: Row, rest: seq<Row>, tag: string)
    ensures SumAmounts(Filter([r] + rest, tag))
         == Plus(Contribution(r, tag), SumAmounts(Filter(rest, tag)))
  {
    var rows := [r] + rest;
    assert rows[0] == r && rows[1..] == rest;
    if r.typ == tag {
      assert Filter(rows, tag) == [r] + Filter(rest, tag);
      assert ([r] + Filter(rest, tag))[1..] == Filter(rest, tag);
    } else {
      assert Filter(rows, tag) == Filter(rest, tag);
    }
  }

  /** The total for `tag` is the sum of the amounts of exactly the rows of type `tag`. */
  lemma {:induction false} TotalIsFilteredSum(rows: seq<Row>, tag: string)
    ensures Total(rows, tag) == SumAmounts(Filter(rows, tag))
    decreases |rows|
  {
    if |rows| > 0 {
      assert rows == [rows[0]] + rows[1..];
      TotalFront(rows[0], rows[1..], tag);
      FilteredSumFront(rows[0], rows[1..], tag);
      TotalIsFilteredSum(rows[1..], tag);
    }
  }

  // ---------------------------------------------------------------------------
  // Lemmas about the balance
  // ---------------------------------------------------------------------------

  /** An empty ledger reports zero income, zero expense and zero net. */
  lemma AggregateEmpty()
    ensures Aggregate([]) == Some(Snapshot(0.0, 0.0, 0.0))
  {
  }

  /** The balance does not depend on the order of the rows. */
  lemma AggregatePermutation(a: seq<Row>, b: seq<Row>)
    requires multiset(a) == multiset(b)
    ensures Aggregate(a) == Aggregate(b)
  {
    TotalPermutation(a, b, Label(Income));
    TotalPermutation(a, b, Label(Expense));
  }

  /**
   Appending one entry row moves the balance by its amount: income x raises
   income and net by x, expense y raises expense by y and lowers net by y.
   A ledger whose balance fails still fails.
   */
  lemma AggregateAppendEntry(rows: seq<Row>, k: Kind, x: real)
    ensures Aggregate(rows + [EntryRow(k, x)])
         == (if Aggregate(rows).Some? then Some(Shift(Aggregate(rows).value, k, x)) else None)
  {
  }
}

=== FILE: options.dfy ===
/** The optional value used wherever the bot either produces a result or fails. */
module Options {

  /** `None` stands for a failed step (a parse error, a store error, an exception). */
  datatype Option<+T> = None | Some(value: T)
}

=== FILE: row_store.dfy ===
/**
 The spreadsheet seen by the handlers: its data rows in storage order.

 A call to the remote service either succeeds or raises (network failure,
 denied access, missing sheet). The `online` parameter says which: it stands
 for everything outside the bot that decides whether that one call succeeds.
 */
module RowStore {
  import opened Options
  import opened Ledger

  /** Appends `row` after the last data row; `None` when the call raises. */
  function AppendRow(rows: seq<Row>, row: Row, online: bool): (r: Option<seq<Row>>)
    ensures r.Some? <==> online
    ensures r.Some? ==> |r.value| == |rows| + 1 && r.value[..|rows|] == rows && r.value[|rows|] == row
  {
    if online then Some(rows + [row]) else None
  }

  /** Reads every data row, in the order they were appended; `None` when the call raises. */
  function ReadAll(rows: seq<Row>, online: bool): (r: Option<seq<Row>>)
    ensures r.Some? <==> online
    ensures r.Some? ==> |r.value| == |rows| && forall i :: 0 <= i < |rows| ==> r.value[i] == rows[i]
  {
    if online then Some(rows) else None
  }

  /** A row appended and then read back is the last row read, with every earlier row as it was. */
  lemma AppendThenRead(rows: seq<Row>, row: Row)
    ensures AppendRow(rows, row, true).Some?
    ensures ReadAll(AppendRow(rows, row, true).value, true) == Some(rows + [row])
  {
  }
}
